=== FILE: README.md ===
# Order form session model

This project models the order-intake page of `app.py`, a Streamlit script.
Its core is a session that moves through four screens:

- **login**: a fixed user id and password;
- **input**: customer fields, a postcode search and one row per product;
- **confirm**: the stored order, with *edit* and *confirm* buttons;
- **complete**: the receipt number and a *logout* button.

One execution of the script is one call of `Session.Run`. It takes the
session store and the one button pressed in that execution. The answers of
the outside world are part of the action:

- the postcode service's reply (`LookupResponse`);
- the order table's reply to an insert (`InsertResponse`).

`st.rerun()` is simply the next call, with `Idle`. Every run reports the
messages it shows and the outside calls it makes (`Lookup`, `Insert`). That
makes "the service is asked only about seven digits" and "one insert per
confirm click" statable.

Modules:

- `Options`: `Option`.
- `Feedback`: the messages the screens show.
- `Catalog`: the product table, line items, the product row and the total.
- `Postcode`: digit-only normalisation, the seven-digit check, and folding a lookup reply into the address.
- `Order`: the input form, the four validation rules and the stored draft.
- `InsertRecord`: the flat record the confirm button inserts, and its inverse.
- `Session`: the session store, `Run`, the reachable-state invariant and the screen-by-screen properties.

## Model

| member | source | states |
|---|---|---|
| Catalog.ProductRow | app.py:239-262 | The row's shape is chosen by the key: pants carry waist and length, the others carry a size. Quantity and memo are copied. A chosen size is copied, and a missing size choice becomes "". |
| Catalog.RowRoundTrip | app.py:239-262 | Showing a stored line item in its own row and reading the row back gives the same item. |
| Catalog.SumTotal | app.py:317 | The generator sum over the catalog, computed one product at a time, equals the catalog total. |
| Catalog.TotalNonNegative | app.py:317 | With positive unit prices the total is never negative. |
| Catalog.TotalZeroIff | app.py:317 | With positive unit prices the total is zero exactly when every quantity is zero. |
| Catalog.TotalBounded | app.py:245 | Quantities stop at 10, so the total is at most ten times the sum of the unit prices. |
| Catalog.CatalogTotal | app.py:44-48 | Over the fixed catalog the total is 2000 per shirt, 3000 per pair of pants and 500 per pair of socks. |
| Catalog.TotalExample | app.py:44-48 | Two shirts, one pair of pants and no socks come to 7000. |
| Postcode.StripNonDigits | app.py:215 | The cleaned postcode has only digits, is no longer than the input, and leaves an all-digit input unchanged. |
| Postcode.StripKeepsDigits | app.py:215 | Every digit survives cleaning as often as it occurs, and no other character survives. |
| Postcode.StripConcat | app.py:215 | Cleaning distributes over concatenation. |
| Postcode.StripIdempotent | app.py:215 | Cleaning twice is cleaning once. |
| Postcode.StripHyphenatedExample | app.py:215-217 | "600-8001" becomes "6008001", which has the seven-digit form. |
| Postcode.StripShortExample | app.py:215-217 | "12345" stays "12345", which does not have the seven-digit form. |
| Postcode.ZipBoxDefault | app.py:204 | The box's start value is the first seven digits of the stored postcode, or all of them when there are fewer: only digits, at most seven, and a prefix of the digits in order. It equals the stored postcode whenever that is already digits of length at most seven. |
| Postcode.ZipBoxStable | app.py:204 | Cutting the start value again changes nothing. |
| Postcode.ZipBoxLongExample | app.py:204 | A stored "600800199" shows as "6008001". |
| Postcode.Search | app.py:214-232 | `zipcode_input` always becomes the cleaned input. The service is asked exactly when that has seven digits, and about that value. A found address becomes `address1+address2+address3`; otherwise the address is unchanged. The message matches the reply, or is the malformed-postcode warning. |
| Postcode.SearchExamples | app.py:214-232 | "600-8001" is stored as "6008001" and looked up. "12345" is stored, not looked up, and leaves the address alone. |
| Postcode.SearchNotFoundExample | app.py:217-228 | A well-formed postcode the service does not know is stored, stays valid, leaves the address alone and reports not found. |
| Order.BuildItems | app.py:312-314 | The form's items have one entry per product, with the shape the key chooses. Each entry is that product's row. |
| Order.BuildItemsFrom | app.py:312-314 | Rows that read back as a given item map build exactly that map. |
| Order.OrderTotalZeroIff | app.py:317 | The catalog total is non-negative and is zero exactly when no product is ordered. |
| Order.Validate | app.py:321-332 | Each of the four messages appears exactly when its rule fails, with no short-circuit. They appear in screen order, and there are none exactly when all four rules hold. |
| Order.Submit | app.py:321-344 | The draft is accepted exactly when the four rules hold for `zipcode_input`. A rejection carries exactly the validation messages. An accepted draft copies the form fields, the rows and `zipcode_input`, and stores the recomputed total. |
| InsertRecord.WithoutPants | app.py:412 | The size columns cover every product except the pants. |
| InsertRecord.ColumnsSpec | app.py:409-412 | A per-product comprehension has one column per product, named key plus suffix, holding that product's value. |
| InsertRecord.FlattenCustomerColumns | app.py:403-408 | The record's name, zipcode, address, phone and email columns copy the draft. |
| InsertRecord.FlattenProductColumns | app.py:409-412 | Each product's quantity goes to the column named by its key, and its memo to `<key>_memo`. The pants send `pants_waist` and `pants_length`; every other product sends `<key>_size`. |
| InsertRecord.FlattenNothingElse | app.py:403-413 | The record has exactly these fifteen columns. In particular `total_price` is not sent. |
| InsertRecord.FlattenRoundTrip | app.py:403-413 | Reading the record back gives the draft it came from: it loses nothing except the total, which the quantities determine. |
| Session.Initial | app.py:27-39 | A fresh session is on the login screen and logged out, with no stored order, no order id, no restored widget values, an empty `zipcode_input` and an empty `address_input`. |
| Session.Prologue | app.py:36-39 | A run refills a missing `address_input` from the stored order, or "" when none is stored, and touches nothing else. |
| Session.Prefill | app.py:245-306 | The untouched input form shows the values the edit button wrote back, else the stored order's name, phone and email, else blanks. The address box shows `address_input`, else the stored address. Every product row reads back as the written-back item, and a fresh row orders nothing. |
| Session.Run | app.py:135-432 | A run makes at most one outside call. An insert happens only for the confirm button on the confirm screen while logged in. A lookup happens only for the search button on the input screen. Logged out, only the login button changes the screen. |
| Session.PhaseSteps | app.py:135-432 | A run either keeps the screen or makes one of five steps: login to input by the login button; input to confirm by submit; confirm to input by edit; confirm to receipt by confirm, only when the insert of the stored order's record returned; receipt to login by logout. |
| Session.OrderDataFrame | app.py:135-432 | A run keeps the stored order, except that an accepted submit on the input screen stores a new one and moves to confirm, and logout on the receipt screen clears the session. |
| Session.ConfirmKeepsDraft | app.py:349-418 | On the confirm screen every run, whatever the button, leaves the stored order as it was. |
| Session.RunPreservesInv | app.py:135-432 | Every run keeps the invariant. It holds that: logged in iff off the login screen; the login screen holds nothing; the stored postcode is all digits; confirm and receipt screens have a stored order; every stored order passed validation and has the recomputed total; an order id exists only on the receipt screen. |
| Session.Reachable | app.py:27-39 | Every session reached from a fresh one by any sequence of runs satisfies the invariant. |
| Session.SignInIff | app.py:139-146 | Login succeeds exactly when both fields match the fixed credentials. A successful one changes only the logged-in flag and the screen. A failed attempt leaves the fresh session as it was and shows the failure. |
| Session.SubmitAdvancesIff | app.py:321-344 | Submit moves to confirm exactly when the four rules hold for the last searched postcode. On success the stored order is the draft the form gives with that postcode: the form's fields and rows and the recomputed total. Otherwise the session is untouched and each broken rule shows its message. Either way nothing else changes: not `zipcode_input`, not `address_input`, not the restored widget values. |
| Session.SearchEffect | app.py:214-232 | On the input screen, search stores the cleaned postcode and asks the service exactly when it has seven digits. The address changes only to a found one. Nothing but `zipcode_input` and `address_input` changes. |
| Session.InputFrame | app.py:267-344 | On the input screen a run that neither searches nor moves to confirm leaves the session exactly as it was. |
| Session.ZipcodeFrame | app.py:135-432 | `zipcode_input` is written only by search on the input screen, by edit on the confirm screen, and by logout. |
| Session.EditRestores | app.py:378-399 | Edit returns to input. Every widget then shows the stored order: name, phone, email, address, every product row and the postcode box. |
| Session.EditThenResubmit | app.py:378-399 | Edit followed by submitting the untouched form stores the very same order again and shows the confirm screen. |
| Session.ConfirmInserted | app.py:402-418 | Confirm sends exactly one insert, of the stored order's flat record, and moves to the receipt screen. The order id is the first returned row's id, and stays unset when no row comes back. |
| Session.ConfirmRaised | app.py:414 | An exception from the insert leaves the session exactly as it was, on the confirm screen, with an error shown. |
| Session.NoSecondInsert | app.py:423-432 | On the receipt screen no run inserts again. Logout returns to a fresh session. Any other run only drops `address_input`. |
| Session.OneShirtDraft | app.py:333-342 | An accepted one-shirt form stores its address and one shirt of size M with no memo. |
| Session.HappyPath | app.py:139-418 | The end-to-end scenario: log in, search 6008001 and keep the found address, order one shirt (2000), confirm. The found address is stored in `address_input` and then in the order, which holds one size-M shirt. The service is asked once. The table is asked once, with the stored order's flat record, and its id becomes the receipt number. |

## Left out

- Rendering, CSS, page layout and the confirm screen's text formatting are not modelled. The confirm screen appears only as "it reads every product entry of the stored order".
- The Supabase client, `st.secrets` and `requests.get` are not modelled as code.
  - The credentials are a parameter.
  - The insert reply and the postcode reply are parameters of the action.
  - A timeout, a network error, unreadable JSON or a missing address part in the reply all count as `Failed`.
- A row returned by the insert is assumed to have an integer `id`. A row without one would raise `KeyError`; that case is not modelled.
- `st.stop()` and `st.rerun()` are not modelled as control flow. A run ends where the script ends, and a rerun is the next `Run` with `Idle`.
- A button that is not on the current screen cannot be pressed. Such an action does what an `Idle` run on that screen does.
- Streamlit's widget-key behaviour is not modelled. A keyed widget keeps its own value and ignores a changed `value=` argument. The model reads the form as a free input (`Form`). It only says what the widgets show when untouched (`Session.Prefill`): the value the edit button wrote, else the `.get` default. The address box not picking up a later search result is therefore not modelled.
- Postcode.Search: `max_chars=7` on the postcode box is not modelled. The model accepts any typed string, which covers every string the box can produce.
- Postcode.IsSevenDigits: Python's `\d` also matches non-ASCII digits, while the model checks `0`-`9`. This is not a difference in practice:
  - the only strings matched against `\d{7}` are cleaned with `[^0-9]` or come from a stored draft;
  - the invariant keeps those ASCII digits.
- The shirt's size choices (S, M, L, XL) are not enforced; a size is any string. Quantities (0 to 10) and waists (61, 64, ..., 109) are enforced by subset types.
- Session.ConfirmRun: any stored order without the catalog's shape stops the script (`ScriptError`). This stands in for the `KeyError` `app.py` raises on a missing entry. It is unreachable, since the invariant keeps every stored order shaped.
- The model follows `app.py` where an order form might be expected to behave otherwise:
  - the name is not trimmed, so a name of spaces passes;
  - the email field is never checked;
  - submit validates `zipcode_input`, the postcode of the last search, not the text in the box;
  - confirm moves to the receipt screen whenever the insert returns, even with no rows, and the order id then stays unset;
  - the receipt screen offers logout, which clears the whole session and returns to the login screen, instead of a new blank input screen.

=== FILE: catalog.dfy ===
/**
 * The fixed product table, the per-product form rows and the derived total.
 */
module Catalog {
  import opened Options

  /** One entry of the product table: key, display label and unit price in yen. */
  datatype Product = Product(key: string, caption: string, price: int)

  /** The catalog, in the order the form lists it. */
  const Products: seq<Product> := [
    Product("shirt", "\U{30B7}\U{30E3}\U{30C4}", 2000),
    Product("pants", "\U{30BA}\U{30DC}\U{30F3}", 3000),
    Product("socks", "\U{9774}\U{4E0B}", 500)
  ]

  /** The one product whose row carries waist and length instead of a size. */
  const PantsKey: string := "pants"

  const ProductKeys: set<string> := {"shirt", "pants", "socks"}

  /** A quantity: the quantity selectbox offers 0 through 10. */
  type Qty = q: int | 0 <= q <= 10

  /** The waists the selectbox offers: 61, 64, ..., 109. */
  predicate IsWaist(n: int) {
    61 <= n <= 109 && (n - 61) % 3 == 0
  }

  /** A waist the selectbox can return. */
  type Waist = w: int | IsWaist(w) witness 61

  /** What one product row contributes to an order. */
  datatype LineItem =
    | Simple(qty: Qty, size: string, memo: string)
    | Pants(qty: Qty, waist: Option<Waist>, length: string, memo: string)

  /**
   * The raw widget values of one product row in one run. `size` is `None`
   * while the shirt selectbox has no choice; `waist` likewise.
   */
  datatype RowInput = RowInput(qty: Qty, size: Option<string>, waist: Option<Waist>, length: string, memo: string)

  /** Python's `x or ""` for an optional string. */
  function OrEmpty(s: Option<string>): string {
    s.GetOr("")
  }

  /** The dictionary a product row returns: its shape is chosen by the key. */
  function ProductRow(key: string, row: RowInput): (item: LineItem)
    ensures item.Pants? <==> key == PantsKey
    ensures item.qty == row.qty && item.memo == row.memo
    ensures item.Pants? ==> item.waist == row.waist && item.length == row.length
    ensures item.Simple? ==> item.size == OrEmpty(row.size)
  {
    if key == PantsKey then Pants(row.qty, row.waist, row.length, row.memo)
    else Simple(row.qty, OrEmpty(row.size), row.memo)
  }

  /** The widget values that reproduce a line item when its row is shown again. */
  function RowOf(item: LineItem): RowInput {
    match item
    case Simple(q, s, m) => RowInput(q, Some(s), None, "", m)
    case Pants(q, w, l, m) => RowInput(q, None, w, l, m)
  }

  /** Showing a stored line item in its own row and reading the row back gives the item. */
  lemma RowRoundTrip(key: string, item: LineItem)
    requires item.Pants? <==> key == PantsKey
    ensures ProductRow(key, RowOf(item)) == item
  {
  }

  /** An item map of the shape the input screen builds: one item per product, pants-shaped for pants only. */
  predicate Shaped(items: map<string, LineItem>) {
    && items.Keys == ProductKeys
    && forall k :: k in items ==> (items[k].Pants? <==> k == PantsKey)
  }

  predicate Covers(cat: seq<Product>, items: map<string, LineItem>) {
    forall p :: p in cat ==> p.key in items
  }

  /** What one product adds to the total. */
  function LineTotal(p: Product, items: map<string, LineItem>): int
    requires p.key in items
  {
    items[p.key].qty * p.price
  }

  /** The sum over `cat` of quantity times unit price, accumulated left to right. */
  function Total(cat: seq<Product>, items: map<string, LineItem>): int
    requires Covers(cat, items)
  {
    if cat == [] then 0
    else Total(cat[..|cat| - 1], items) + LineTotal(cat[|cat| - 1], items)
  }

  /** The generator sum of the input screen: one product at a time, in catalog order. */
  method SumTotal(cat: seq<Product>, items: map<string, LineItem>) returns (total: int)
    requires Covers(cat, items)
    ensures total == Total(cat, items)
  {
    total := 0;
    var i := 0;
    while i < |cat|
      invariant 0 <= i <= |cat|
      invariant total == Total(cat[..i], items)
    {
      assert cat[..i + 1][..i] == cat[..i];
      total := total + LineTotal(cat[i], items);
      i := i + 1;
    }
    assert cat[..|cat|] == cat;
  }

  lemma CatalogFacts()
    ensures forall p :: p in Products ==> p.price > 0
    ensures forall p :: p in Products ==> p.key in ProductKeys
    ensures forall k :: k in ProductKeys ==> exists p :: p in Products && p.key == k
  {
    assert Products[0].key == "shirt" && Products[1].key == "pants" && Products[2].key == "socks";
  }

  /** A total never goes negative when every price is positive. */
  lemma {:induction false} TotalNonNegative(cat: seq<Product>, items: map<string, LineItem>)
    requires Covers(cat, items)
    requires forall p :: p in cat ==> p.price > 0
    ensures Total(cat, items) >= 0
  {
    if cat != [] {
      var init := cat[..|cat| - 1];
      assert forall p :: p in init ==> p in cat;
      TotalNonNegative(init, items);
    }
  }

  /** With positive prices, the total is zero exactly when every listed quantity is zero. */
  lemma {:induction false} TotalZeroIff(cat: seq<Product>, items: map<string, LineItem>)
    requires Covers(cat, items)
    requires forall p :: p in cat ==> p.price > 0
    ensures Total(cat, items) == 0 <==> forall p :: p in cat ==> items[p.key].qty == 0
  {
    if cat != [] {
      var init := cat[..|cat| - 1];
      var last := cat[|cat| - 1];
      assert cat == init + [last];
      assert forall p :: p in init ==> p in cat;
      TotalZeroIff(init, items);
      TotalNonNegative(init, items);
      if Total(cat, items) == 0 {
        assert LineTotal(last, items) == 0;
        assert items[last.key].qty == 0;
        forall p | p in cat
          ensures items[p.key].qty == 0
        {
          if p != last {
            assert p in init;
          }
        }
      }
    }
  }

  /** The sum of the unit prices of `cat`. */
  function PriceSum(cat: seq<Product>): int {
    if cat == [] then 0 else PriceSum(cat[..|cat| - 1]) + cat[|cat| - 1].price
  }

  /** Quantities stop at 10, so a total never exceeds ten of every product. */
  lemma {:induction false} TotalBounded(cat: seq<Product>, items: map<string, LineItem>)
    requires Covers(cat, items)
    requires forall p :: p in cat ==> p.price > 0
    ensures Total(cat, items) <= 10 * PriceSum(cat)
  {
    if cat != [] {
      var init := cat[..|cat| - 1];
      var last := cat[|cat| - 1];
      assert forall p :: p in init ==> p in cat;
      TotalBounded(init, items);
      assert items[last.key].qty * last.price <= 10 * last.price;
    }
  }

  /** Over the fixed catalog, the total is 2000 yen a shirt, 3000 a pair of pants and 500 a pair of socks. */
  lemma CatalogTotal(items: map<string, LineItem>)
    requires Shaped(items)
    ensures Total(Products, items) == items["shirt"].qty * 2000 + items["pants"].qty * 3000 + items["socks"].qty * 500
  {
    assert Products[..2][..1] == Products[..1];
    assert Products[..3][..2] == Products[..2];
    assert Products[..1][..0] == [];
    assert Products[..3] == Products;
    assert Total(Products[..1], items) == items["shirt"].qty * 2000;
    assert Total(Products[..2], items) == items["shirt"].qty * 2000 + items["pants"].qty * 3000;
  }

  /** The worked example: two shirts, one pair of pants and no socks come to 7000 yen. */
  lemma TotalExample(items: map<string, LineItem>)
    requires Shaped(items)
    requires items["shirt"].qty == 2 && items["pants"].qty == 1 && items["socks"].qty == 0
    ensures Total(Products, items) == 7000
  {
    CatalogTotal(items);
  }
}

=== FILE: feedback.dfy ===
/** The messages the order form shows (st.success / st.info / st.warning / st.error). */
module Feedback {

  datatype Message =
    | LoginSucceeded          // ログイン成功
    | LoginFailed             // ログイン失敗
    | AddressFound            // lookup returned at least one result
    | AddressNotFound         // lookup returned no results
    | LookupFailed            // the lookup raised (network, timeout, malformed JSON)
    | PostcodeMalformed       // search pressed with something other than 7 digits
    | NameRequired            // submit with an empty name
    | PostcodeRequired        // submit while zipcode_input is not 7 digits
    | AddressRequired         // submit with an empty address
    | QuantityRequired        // submit with a zero total
    | ScriptError             // an uncaught exception ended the run
}

=== FILE: options.dfy ===
/** Optional values, used for Python's `None` and for session-state keys that may be absent. */
module Options {

  datatype Option<+T> = None | Some(value: T) {

    /** The value, or `default` when absent: Python's `d.get(key, default)`. */
    function GetOr(default: T): T {
      match this
      case Some(v) => v
      case None => default
    }
  }
}

=== FILE: order.dfy ===
/**
 * The order draft: the input-screen gate that builds it, and the flat
 * record the confirm step sends to the order table.
 */
module Order {
  import opened Options
  import opened Feedback
  import opened Catalog
  import opened Postcode

  /** The widget values the input screen reads in one run. */
  datatype Form = Form(name: string, address: string, phone: string, email: string, rows: map<string, RowInput>)

  /** The form has a row for every product, as the input screen's loop over the catalog guarantees. */
  predicate FormOk(f: Form) {
    ProductKeys <= f.rows.Keys
  }

  /** The items the product rows return, keyed by product. */
  function BuildItems(f: Form): (items: map<string, LineItem>)
    requires FormOk(f)
    ensures Shaped(items)
    ensures forall k :: k in items ==> items[k] == ProductRow(k, f.rows[k])
  {
    map k | k in ProductKeys :: ProductRow(k, f.rows[k])
  }

  /** Rows that read back as a shaped item map build exactly that map. */
  lemma BuildItemsFrom(f: Form, items: map<string, LineItem>)
    requires FormOk(f) && Shaped(items)
    requires forall k :: k in ProductKeys ==> ProductRow(k, f.rows[k]) == items[k]
    ensures BuildItems(f) == items
  {
  }

  /** The order total over the whole catalog. */
  function OrderTotal(items: map<string, LineItem>): int
    requires Shaped(items)
  {
    CatalogFacts();
    Total(Products, items)
  }

  /** A catalog-wide total is never negative and is zero exactly when nothing is ordered. */
  lemma OrderTotalZeroIff(items: map<string, LineItem>)
    requires Shaped(items)
    ensures OrderTotal(items) >= 0
    ensures OrderTotal(items) == 0 <==> forall k :: k in items ==> items[k].qty == 0
  {
    CatalogFacts();
    TotalNonNegative(Products, items);
    TotalZeroIff(Products, items);
    if forall p :: p in Products ==> items[p.key].qty == 0 {
      forall k | k in items
        ensures items[k].qty == 0
      {
        var p :| p in Products && p.key == k;
      }
    }
  }

  /** The order stored at the input-to-confirm transition. */
  datatype Draft = Draft(
    name: string,
    zipcode: string,
    address: string,
    phone: string,
    email: string,
    items: map<string, LineItem>,
    totalPrice: int)

  /** The four rules the input screen checks before moving on. */
  predicate Eligible(name: string, zipcode: string, address: string, total: int) {
    && name != ""
    && IsSevenDigits(zipcode)
    && address != ""
    && total != 0
  }

  /** A draft the input screen could have stored. */
  predicate DraftOk(d: Draft) {
    && Shaped(d.items)
    && d.totalPrice == OrderTotal(d.items)
    && Eligible(d.name, d.zipcode, d.address, d.totalPrice)
  }

  /** Where each validation message sits in the order the screen shows them. */
  function Rank(m: Message): int {
    match m
    case NameRequired => 0
    case PostcodeRequired => 1
    case AddressRequired => 2
    case QuantityRequired => 3
    case _ => 4
  }

  /** The error messages of a failed submit: each failing rule reports, none stops the others. */
  function Validate(name: string, zipcode: string, address: string, total: int): (errors: seq<Message>)
    ensures NameRequired in errors <==> name == ""
    ensures PostcodeRequired in errors <==> !IsSevenDigits(zipcode)
    ensures AddressRequired in errors <==> address == ""
    ensures QuantityRequired in errors <==> total == 0
    ensures forall m :: m in errors ==> Rank(m) < 4
    ensures forall i, j :: 0 <= i < j < |errors| ==> Rank(errors[i]) < Rank(errors[j])
    ensures errors == [] <==> Eligible(name, zipcode, address, total)
  {
    (if name == "" then [NameRequired] else [])
    + (if !IsSevenDigits(zipcode) then [PostcodeRequired] else [])
    + (if address == "" then [AddressRequired] else [])
    + (if total == 0 then [QuantityRequired] else [])
  }

  /** The outcome of the submit button. */
  datatype Submission = Accepted(draft: Draft) | Rejected(errors: seq<Message>)

  /**
   * Pressing the submit button with the form `f` while `zipcode_input` is
   * `zipcode`: the postcode comes from the last search, not from the text box.
   */
  function Submit(f: Form, zipcode: string): (r: Submission)
    requires FormOk(f)
    ensures r.Accepted? <==> Eligible(f.name, zipcode, f.address, OrderTotal(BuildItems(f)))
    ensures r.Rejected? ==> r.errors != [] && r.errors == Validate(f.name, zipcode, f.address, OrderTotal(BuildItems(f)))
    ensures r.Accepted? ==> DraftOk(r.draft)
    ensures r.Accepted? ==>
              && r.draft.name == f.name && r.draft.zipcode == zipcode && r.draft.address == f.address
              && r.draft.phone == f.phone && r.draft.email == f.email
              && r.draft.items.Keys == ProductKeys
              && (forall k :: k in ProductKeys ==> r.draft.items[k] == ProductRow(k, f.rows[k]))
  {
    var items := BuildItems(f);
    var total := OrderTotal(items);
    var errors := Validate(f.name, zipcode, f.address, total);
    if errors != [] then Rejected(errors)
    else Accepted(Draft(f.name, zipcode, f.address, f.phone, f.email, items, total))
  }
}

=== FILE: postcode.dfy ===
/**
 * The postcode row of the input screen: digit-only normalisation, the
 * seven-digit check, and folding an address-lookup answer into the
 * address pre-fill.
 */
module Postcode {
  import opened Options
  import opened Feedback

  predicate IsDigit(c: char) {
    '0' <= c <= '9'
  }

  predicate AllDigits(s: string) {
    forall i :: 0 <= i < |s| ==> IsDigit(s[i])
  }

  /** Removes every character outside 0-9, keeping the digits in order. */
  function StripNonDigits(s: string): (r: string)
    ensures AllDigits(r)
    ensures |r| <= |s|
    ensures AllDigits(s) ==> r == s
  {
    if s == [] then []
    else
      var rest := StripNonDigits(s[1..]);
      assert AllDigits(s) ==> AllDigits(s[1..]);
      if IsDigit(s[0]) then [s[0]] + rest else rest
  }

  /** Every digit survives normalisation as often as it occurs; every other character is gone. */
  lemma {:induction false} StripKeepsDigits(s: string)
    ensures forall c :: IsDigit(c) ==> multiset(StripNonDigits(s))[c] == multiset(s)[c]
    ensures forall c :: !IsDigit(c) ==> c !in StripNonDigits(s)
  {
    if s != [] {
      StripKeepsDigits(s[1..]);
      assert s == [s[0]] + s[1..];
      assert multiset(s) == multiset([s[0]]) + multiset(s[1..]);
    }
  }

  /** Normalisation distributes over concatenation, so it works character by character. */
  lemma {:induction false} StripConcat(a: string, b: string)
    ensures StripNonDigits(a + b) == StripNonDigits(a) + StripNonDigits(b)
  {
    if a != [] {
      assert a + b == [a[0]] + (a[1..] + b);
      assert a == [a[0]] + a[1..];
      StripCons(a[0], a[1..] + b);
      StripCons(a[0], a[1..]);
      StripConcat(a[1..], b);
    } else {
      assert a + b == b;
    }
  }

  /** Normalising twice is normalising once. */
  lemma StripIdempotent(s: string)
    ensures StripNonDigits(StripNonDigits(s)) == StripNonDigits(s)
  {
  }

  /** One step of normalisation: the first character is kept exactly when it is a digit. */
  lemma StripCons(c: char, s: string)
    ensures StripNonDigits([c] + s) == (if IsDigit(c) then [c] else []) + StripNonDigits(s)
  {
    assert ([c] + s)[1..] == s;
  }

  lemma StripDash()
    ensures StripNonDigits("-8001") == "8001"
  {
    assert AllDigits("8001");
    StripCons('-', "8001");
  }

  /** The hyphenated form of a postcode normalises to its seven digits. */
  lemma StripHyphenatedExample()
    ensures StripNonDigits("600-8001") == "6008001"
    ensures IsSevenDigits(StripNonDigits("600-8001"))
  {
    assert "600-8001" == "600" + "-8001";
    StripConcat("600", "-8001");
    StripDash();
    assert AllDigits("600");
    assert "600" + "8001" == "6008001";
  }

  /** Five digits stay five digits, which is not the seven-digit form. */
  lemma StripShortExample()
    ensures StripNonDigits("12345") == "12345"
    ensures !IsSevenDigits(StripNonDigits("12345"))
  {
    assert AllDigits("12345");
  }

  /** The seven-digit form the postcode must have: exactly 7 characters, all digits. */
  predicate IsSevenDigits(s: string) {
    |s| == 7 && AllDigits(s)
  }

  /**
   * The value the postcode text box starts with: the digits of the stored
   * postcode, cut to at most seven.
   */
  function ZipBoxDefault(zipcodeInput: string): (r: string)
    ensures AllDigits(r) && |r| <= 7
    ensures AllDigits(zipcodeInput) && |zipcodeInput| <= 7 ==> r == zipcodeInput
    ensures var d := StripNonDigits(zipcodeInput); |r| == (if |d| <= 7 then |d| else 7) && r == d[..|r|]
  {
    var d := StripNonDigits(zipcodeInput);
    if |d| <= 7 then d else d[..7]
  }

  /** Showing the box's start value again changes nothing: it is already digits, at most seven. */
  lemma ZipBoxStable(zipcodeInput: string)
    ensures ZipBoxDefault(ZipBoxDefault(zipcodeInput)) == ZipBoxDefault(zipcodeInput)
  {
  }

  /** A stored postcode longer than seven digits shows only its first seven. */
  lemma ZipBoxLongExample()
    ensures ZipBoxDefault("600800199") == "6008001"
  {
    assert AllDigits("600800199");
    assert StripNonDigits("600800199") == "600800199";
    assert "600800199"[..7] == "6008001";
  }

  /**
   * What the postcode service answers: the three parts of its first result,
   * no result at all, or a failure (network, timeout, unreadable reply).
   */
  datatype LookupResponse =
    | Resolved(address1: string, address2: string, address3: string)
    | NotFound
    | Failed

  /**
   * The effect of pressing the search button: the new `zipcode_input`, the
   * new `address_input`, the message shown, and the postcode sent to the
   * service, if any.
   */
  datatype SearchResult = SearchResult(zipcodeInput: string, addressInput: Option<string>, message: Message, lookup: Option<string>)

  /**
   * Pressing the search button with `typed` in the postcode box, when the
   * service would answer `response` and `address_input` is `address`.
   */
  function Search(typed: string, response: LookupResponse, address: Option<string>): (r: SearchResult)
    ensures r.zipcodeInput == StripNonDigits(typed)
    ensures r.lookup.Some? <==> IsSevenDigits(StripNonDigits(typed))
    ensures r.lookup.Some? ==> r.lookup.value == r.zipcodeInput
    ensures r.lookup.Some? && response.Resolved? ==>
              r.addressInput == Some(response.address1 + response.address2 + response.address3)
    ensures r.addressInput != address ==> r.lookup.Some? && response.Resolved?
    ensures r.message == PostcodeMalformed <==> r.lookup.None?
    ensures r.lookup.Some? ==> r.message == (match response
                                              case Resolved(_, _, _) => AddressFound
                                              case NotFound => AddressNotFound
                                              case Failed => LookupFailed)
  {
    var clean := StripNonDigits(typed);
    if IsSevenDigits(clean) then
      match response
      case Resolved(a1, a2, a3) => SearchResult(clean, Some(a1 + a2 + a3), AddressFound, Some(clean))
      case NotFound => SearchResult(clean, address, AddressNotFound, Some(clean))
      case Failed => SearchResult(clean, address, LookupFailed, Some(clean))
    else
      SearchResult(clean, address, PostcodeMalformed, None)
  }

  /** "600-8001" is stored as "6008001" and looked up; "12345" is stored but not looked up. */
  lemma SearchExamples(response: LookupResponse, address: Option<string>)
    ensures Search("600-8001", response, address).zipcodeInput == "6008001"
    ensures Search("600-8001", response, address).lookup == Some("6008001")
    ensures Search("12345", response, address).zipcodeInput == "12345"
    ensures Search("12345", response, address).lookup == None
    ensures Search("12345", response, address).addressInput == address
  {
    StripHyphenatedExample();
    StripShortExample();
  }

  /**
   * A well-formed postcode the service does not know: it is still stored
   * and still valid, the address is left for the user, and the answer is
   * reported as not found.
   */
  lemma SearchNotFoundExample(address: Option<string>)
    ensures Search("0000000", NotFound, address).zipcodeInput == "0000000"
    ensures IsSevenDigits(Search("0000000", NotFound, address).zipcodeInput)
    ensures Search("0000000", NotFound, address).addressInput == address
    ensures Search("0000000", NotFound, address).message == AddressNotFound
  {
    assert AllDigits("0000000");
  }
}

=== FILE: record.dfy ===
/**
 * The flat record the confirm step inserts into the order table, and the
 * inverse reading that shows it loses nothing but the total.
 */
module InsertRecord {
  import opened Options
  import opened Catalog
  import opened Order

  /** One column value of the order table. */
  datatype Field = Text(text: string) | Number(number: int) | Null

  /** One column per product of `cat`, named by its key followed by `suffix`; later products win a clash. */
  function Columns(cat: seq<Product>, suffix: string, value: string -> Field): map<string, Field> {
    if cat == [] then map[]
    else map[cat[0].key + suffix := value(cat[0].key)] + Columns(cat[1..], suffix, value)
  }

  /** The products that carry a size column. */
  function WithoutPants(cat: seq<Product>): (r: seq<Product>)
    ensures forall p :: p in r <==> p in cat && p.key != PantsKey
  {
    if cat == [] then []
    else (if cat[0].key != PantsKey then [cat[0]] else []) + WithoutPants(cat[1..])
  }

  function QtyField(items: map<string, LineItem>): string -> Field {
    k => if k in items then Number(items[k].qty) else Null
  }

  function MemoField(items: map<string, LineItem>): string -> Field {
    k => if k in items then Text(items[k].memo) else Null
  }

  function SizeField(items: map<string, LineItem>): string -> Field {
    k => if k in items && items[k].Simple? then Text(items[k].size) else Null
  }

  function WaistField(w: Option<Waist>): Field {
    match w
    case Some(n) => Number(n)
    case None => Null
  }

  /** The record the confirm button inserts: customer fields, then per-product columns. */
  function Flatten(d: Draft): map<string, Field>
    requires Shaped(d.items)
  {
    map["name" := Text(d.name), "zipcode" := Text(d.zipcode), "address" := Text(d.address),
        "phone" := Text(d.phone), "email" := Text(d.email)]
    + Columns(Products, "", QtyField(d.items))
    + Columns(Products, "_memo", MemoField(d.items))
    + (if PantsKey in d.items
       then map["pants_waist" := WaistField(d.items[PantsKey].waist),
                "pants_length" := Text(d.items[PantsKey].length)]
       else map[])
    + Columns(WithoutPants(Products), "_size", SizeField(d.items))
  }

  lemma SuffixInjective(a: string, b: string, suffix: string)
    requires a + suffix == b + suffix
    ensures a == b
  {
    assert |a| == |b|;
    assert a == (a + suffix)[..|a|];
    assert b == (b + suffix)[..|b|];
  }

  /**
   * Each product of `cat` gets exactly one column, holding its value: the
   * catalog-independent statement of the per-product comprehensions that
   * build the quantity, memo and size columns.
   */
  lemma {:induction false} ColumnsSpec(cat: seq<Product>, suffix: string, value: string -> Field)
    ensures forall k :: k in Columns(cat, suffix, value) <==> exists p :: p in cat && k == p.key + suffix
    ensures forall p :: p in cat ==> Columns(cat, suffix, value)[p.key + suffix] == value(p.key)
  {
    if cat != [] {
      ColumnsSpec(cat[1..], suffix, value);
      var m := Columns(cat, suffix, value);
      forall p | p in cat
        ensures m[p.key + suffix] == value(p.key)
      {
        if p.key + suffix !in Columns(cat[1..], suffix, value) {
          assert p !in cat[1..];
        } else {
          var q :| q in cat[1..] && p.key + suffix == q.key + suffix;
          SuffixInjective(p.key, q.key, suffix);
        }
      }
      forall k | k in m
        ensures exists p :: p in cat && k == p.key + suffix
      {
        if k != cat[0].key + suffix {
          var q :| q in cat[1..] && k == q.key + suffix;
          assert q in cat;
        }
      }
    }
  }

  /** Over the fixed catalog, a column family is one column per product. */
  lemma ProductColumns(suffix: string, value: string -> Field)
    ensures Columns(Products, suffix, value)
            == map["shirt" + suffix := value("shirt")]
               + (map["pants" + suffix := value("pants")] + map["socks" + suffix := value("socks")])
  {
    var p1, p2 := Products[1..], Products[1..][1..];
    assert p2[1..] == [];
    assert Columns(p2, suffix, value) == map["socks" + suffix := value("socks")] + map[];
    assert Columns(p1, suffix, value) == map["pants" + suffix := value("pants")] + Columns(p2, suffix, value);
    var last := map["socks" + suffix := value("socks")];
    assert last + map[] == last;
  }

  /** The size columns skip the pants. */
  lemma SizeColumns(value: string -> Field)
    ensures Columns(WithoutPants(Products), "_size", value)
            == map["shirt_size" := value("shirt"), "socks_size" := value("socks")]
  {
    var sized := [Products[0], Products[2]];
    assert WithoutPants(Products) == sized;
    assert sized[1..][1..] == [];
    assert "shirt" + "_size" == "shirt_size";
    assert "socks" + "_size" == "socks_size";
    var last := map["socks_size" := value("socks")];
    assert Columns(sized[1..], "_size", value) == last + map[] == last;
    assert map["shirt_size" := value("shirt")] + last == map["shirt_size" := value("shirt"), "socks_size" := value("socks")];
  }

  /** Three singleton columns with distinct names merge into one three-column record. */
  lemma ThreeColumns(a: string, b: string, c: string, x: Field, y: Field, z: Field)
    requires a != b && a != c && b != c
    ensures map[a := x] + (map[b := y] + map[c := z]) == map[a := x, b := y, c := z]
  {
  }

  lemma QtyColumns(items: map<string, LineItem>)
    requires Shaped(items)
    ensures Columns(Products, "", QtyField(items))
            == map["shirt" := Number(items["shirt"].qty), "pants" := Number(items["pants"].qty),
                   "socks" := Number(items["socks"].qty)]
  {
    ProductColumns("", QtyField(items));
    assert "shirt" + "" == "shirt" && "pants" + "" == "pants" && "socks" + "" == "socks";
    ThreeColumns("shirt", "pants", "socks",
                 Number(items["shirt"].qty), Number(items["pants"].qty), Number(items["socks"].qty));
  }

  lemma MemoColumns(items: map<string, LineItem>)
    requires Shaped(items)
    ensures Columns(Products, "_memo", MemoField(items))
            == map["shirt_memo" := Text(items["shirt"].memo), "pants_memo" := Text(items["pants"].memo),
                   "socks_memo" := Text(items["socks"].memo)]
  {
    ProductColumns("_memo", MemoField(items));
    assert "shirt" + "_memo" == "shirt_memo";
    assert "pants" + "_memo" == "pants_memo";
    assert "socks" + "_memo" == "socks_memo";
    ThreeColumns("shirt_memo", "pants_memo", "socks_memo",
                 Text(items["shirt"].memo), Text(items["pants"].memo), Text(items["socks"].memo));
  }

  // `ValuesOf`, `Families`, `WrittenRecord` and the `Written*` lemmas below
  // exist only to prove the `Flatten*` lemmas cheaply: they name the fifteen
  // column values once, so each column fact is a lookup in one map display.

  /**
   * The column values of a draft, in the order the confirm step lists them:
   * the customer fields, the quantity of every product, the memo of every
   * product, the waist and length of the pants, and the size of every other
   * product.
   */
  function ValuesOf(d: Draft): (v: seq<Field>)
    requires Shaped(d.items)
    ensures |v| == 15
  {
    var shirt, pants, socks := d.items["shirt"], d.items["pants"], d.items["socks"];
    [Text(d.name), Text(d.zipcode), Text(d.address), Text(d.phone), Text(d.email),
     Number(shirt.qty), Number(pants.qty), Number(socks.qty),
     Text(shirt.memo), Text(pants.memo), Text(socks.memo),
     WaistField(pants.waist), Text(pants.length),
     Text(shirt.size), Text(socks.size)]
  }

  /** The fifteen values merged family by family, as the dictionary literal does. */
  function Families(v: seq<Field>): map<string, Field>
    requires |v| == 15
  {
    map["name" := v[0], "zipcode" := v[1], "address" := v[2], "phone" := v[3], "email" := v[4]]
    + map["shirt" := v[5], "pants" := v[6], "socks" := v[7]]
    + map["shirt_memo" := v[8], "pants_memo" := v[9], "socks_memo" := v[10]]
    + map["pants_waist" := v[11], "pants_length" := v[12]]
    + map["shirt_size" := v[13], "socks_size" := v[14]]
  }

  /** The fifteen values as one record, one column each. */
  function WrittenRecord(v: seq<Field>): map<string, Field>
    requires |v| == 15
  {
    map["name" := v[0], "zipcode" := v[1], "address" := v[2], "phone" := v[3], "email" := v[4],
        "shirt" := v[5], "pants" := v[6], "socks" := v[7],
        "shirt_memo" := v[8], "pants_memo" := v[9], "socks_memo" := v[10],
        "pants_waist" := v[11], "pants_length" := v[12],
        "shirt_size" := v[13], "socks_size" := v[14]]
  }

  /** Column names being distinct, merging the families loses no column. */
  lemma MergeFamilies(v: seq<Field>)
    requires |v| == 15
    ensures Families(v) == WrittenRecord(v)
  {
    var customer := map["name" := v[0], "zipcode" := v[1], "address" := v[2], "phone" := v[3], "email" := v[4]];
    var withQty := customer + map["shirt" := v[5], "pants" := v[6], "socks" := v[7]];
    assert withQty == customer["shirt" := v[5]]["pants" := v[6]]["socks" := v[7]];
    var withMemo := withQty + map["shirt_memo" := v[8], "pants_memo" := v[9], "socks_memo" := v[10]];
    assert withMemo == withQty["shirt_memo" := v[8]]["pants_memo" := v[9]]["socks_memo" := v[10]];
    var withPants := withMemo + map["pants_waist" := v[11], "pants_length" := v[12]];
    assert withPants == withMemo["pants_waist" := v[11]]["pants_length" := v[12]];
    var all := withPants + map["shirt_size" := v[13], "socks_size" := v[14]];
    assert all == withPants["shirt_size" := v[13]]["socks_size" := v[14]];
  }

  /** The catalog-driven record is the written-out one. */
  lemma FlattenFamilies(d: Draft)
    requires Shaped(d.items)
    ensures Flatten(d) == Families(ValuesOf(d))
  {
    QtyColumns(d.items);
    MemoColumns(d.items);
    SizeColumns(SizeField(d.items));
  }

  /** The value a record holds in column `k`, if it has that column. */
  function Column(r: map<string, Field>, k: string): Option<Field> {
    if k in r then Some(r[k]) else None
  }

  /** The names of the columns the confirm step sends. */
  const RecordColumns: set<string> :=
    {"name", "zipcode", "address", "phone", "email", "shirt", "pants", "socks",
     "shirt_memo", "pants_memo", "socks_memo", "pants_waist", "pants_length",
     "shirt_size", "socks_size"}

  /** The insert record of a draft is its written-out record. */
  lemma FlattenColumns(d: Draft, r: map<string, Field>)
    requires Shaped(d.items)
    requires r == Flatten(d)
    ensures r == WrittenRecord(ValuesOf(d))
  {
    FlattenFamilies(d);
    MergeFamilies(ValuesOf(d));
  }

  /** The customer columns of a written-out record hold the first five values. */
  lemma WrittenCustomerAt(v: seq<Field>)
    requires |v| == 15
    ensures Column(WrittenRecord(v), "name") == Some(v[0]) && Column(WrittenRecord(v), "zipcode") == Some(v[1])
    ensures Column(WrittenRecord(v), "address") == Some(v[2])
    ensures Column(WrittenRecord(v), "phone") == Some(v[3]) && Column(WrittenRecord(v), "email") == Some(v[4])
  {
  }

  /** The quantity and memo columns of a written-out record hold the next six values. */
  lemma WrittenProductAt(v: seq<Field>)
    requires |v| == 15
    ensures Column(WrittenRecord(v), "shirt") == Some(v[5]) && Column(WrittenRecord(v), "pants") == Some(v[6])
    ensures Column(WrittenRecord(v), "socks") == Some(v[7])
    ensures Column(WrittenRecord(v), "shirt_memo") == Some(v[8]) && Column(WrittenRecord(v), "pants_memo") == Some(v[9])
    ensures Column(WrittenRecord(v), "socks_memo") == Some(v[10])
  {
  }

  /** The waist, length and size columns of a written-out record hold the last four values. */
  lemma WrittenSizeAt(v: seq<Field>)
    requires |v| == 15
    ensures Column(WrittenRecord(v), "pants_waist") == Some(v[11]) && Column(WrittenRecord(v), "pants_length") == Some(v[12])
    ensures Column(WrittenRecord(v), "shirt_size") == Some(v[13]) && Column(WrittenRecord(v), "socks_size") == Some(v[14])
  {
  }

  lemma WrittenCustomer(d: Draft, r: map<string, Field>)
    requires Shaped(d.items)
    requires r == WrittenRecord(ValuesOf(d))
    ensures Column(r, "name") == Some(Text(d.name)) && Column(r, "zipcode") == Some(Text(d.zipcode))
    ensures Column(r, "address") == Some(Text(d.address))
    ensures Column(r, "phone") == Some(Text(d.phone)) && Column(r, "email") == Some(Text(d.email))
  {
    WrittenCustomerAt(ValuesOf(d));
  }

  lemma WrittenQuantities(d: Draft, r: map<string, Field>)
    requires Shaped(d.items)
    requires r == WrittenRecord(ValuesOf(d))
    ensures forall k :: k in ProductKeys ==> Column(r, k) == Some(Number(d.items[k].qty))
  {
    WrittenProductAt(ValuesOf(d));
  }

  lemma WrittenMemos(d: Draft, r: map<string, Field>)
    requires Shaped(d.items)
    requires r == WrittenRecord(ValuesOf(d))
    ensures forall k :: k in ProductKeys ==> Column(r, k + "_memo") == Some(Text(d.items[k].memo))
  {
    WrittenProductAt(ValuesOf(d));
    assert "shirt" + "_memo" == "shirt_memo" && "pants" + "_memo" == "pants_memo" && "socks" + "_memo" == "socks_memo";
  }

  lemma WrittenSizes(d: Draft, r: map<string, Field>)
    requires Shaped(d.items)
    requires r == WrittenRecord(ValuesOf(d))
    ensures Column(r, "pants_waist") == Some(WaistField(d.items[PantsKey].waist))
    ensures Column(r, "pants_length") == Some(Text(d.items[PantsKey].length))
    ensures forall k :: k in ProductKeys && k != PantsKey ==> Column(r, k + "_size") == Some(Text(d.items[k].size))
  {
    WrittenSizeAt(ValuesOf(d));
    assert "shirt" + "_size" == "shirt_size" && "socks" + "_size" == "socks_size";
  }

  lemma WrittenNothingElse(d: Draft, r: map<string, Field>)
    requires Shaped(d.items)
    requires r == WrittenRecord(ValuesOf(d))
    ensures r.Keys == RecordColumns
    ensures "total_price" !in r
  {
    WrittenKeys(ValuesOf(d));
  }

  lemma WrittenKeys(v: seq<Field>)
    requires |v| == 15
    ensures WrittenRecord(v).Keys == RecordColumns
    ensures "total_price" !in WrittenRecord(v)
  {
    WrittenKeysCovered(v);
    WrittenKeysListed(v);
  }

  lemma WrittenKeysCovered(v: seq<Field>)
    requires |v| == 15
    ensures RecordColumns <= WrittenRecord(v).Keys
  {
  }

  lemma WrittenKeysListed(v: seq<Field>)
    requires |v| == 15
    ensures WrittenRecord(v).Keys <= RecordColumns
    ensures "total_price" !in WrittenRecord(v)
  {
  }

  /** The customer columns of the insert record copy the draft's customer fields. */
  lemma FlattenCustomerColumns(d: Draft)
    requires Shaped(d.items)
    ensures Column(Flatten(d), "name") == Some(Text(d.name))
    ensures Column(Flatten(d), "zipcode") == Some(Text(d.zipcode))
    ensures Column(Flatten(d), "address") == Some(Text(d.address))
    ensures Column(Flatten(d), "phone") == Some(Text(d.phone))
    ensures Column(Flatten(d), "email") == Some(Text(d.email))
  {
    FlattenColumns(d, Flatten(d));
    WrittenCustomer(d, Flatten(d));
  }

  /**
   * Every product's quantity goes to the column named after it and its memo
   * to `<key>_memo`; the pants send waist and length, every other product
   * sends `<key>_size`.
   */
  lemma FlattenProductColumns(d: Draft)
    requires Shaped(d.items)
    ensures forall k :: k in ProductKeys ==> Column(Flatten(d), k) == Some(Number(d.items[k].qty))
    ensures forall k :: k in ProductKeys ==> Column(Flatten(d), k + "_memo") == Some(Text(d.items[k].memo))
    ensures Column(Flatten(d), "pants_waist") == Some(WaistField(d.items[PantsKey].waist))
    ensures Column(Flatten(d), "pants_length") == Some(Text(d.items[PantsKey].length))
    ensures forall k :: k in ProductKeys && k != PantsKey ==> Column(Flatten(d), k + "_size") == Some(Text(d.items[k].size))
  {
    FlattenColumns(d, Flatten(d));
    WrittenQuantities(d, Flatten(d));
    WrittenMemos(d, Flatten(d));
    WrittenSizes(d, Flatten(d));
  }

  /** The insert record has no other column; in particular the total is not sent. */
  lemma FlattenNothingElse(d: Draft)
    requires Shaped(d.items)
    ensures Flatten(d).Keys == RecordColumns
    ensures "total_price" !in Flatten(d)
  {
    FlattenColumns(d, Flatten(d));
    WrittenNothingElse(d, Flatten(d));
  }

  function TextAt(r: map<string, Field>, k: string): Option<string> {
    if k in r && r[k].Text? then Some(r[k].text) else None
  }

  function QtyAt(r: map<string, Field>, k: string): Option<Qty> {
    if k in r && r[k].Number? && 0 <= r[k].number <= 10 then Some(r[k].number) else None
  }

  function WaistAt(r: map<string, Field>, k: string): Option<Option<Waist>> {
    if k !in r then None
    else match r[k]
      case Null => Some(None)
      case Number(n) => if IsWaist(n) then Some(Some(n)) else None
      case Text(_) => None
  }

  /** The line item of product `key` read back from a flat record. */
  function ItemAt(r: map<string, Field>, key: string): (item: Option<LineItem>)
    ensures item.Some? ==> (item.value.Pants? <==> key == PantsKey)
  {
    var qty := QtyAt(r, key);
    var memo := TextAt(r, key + "_memo");
    if qty.None? || memo.None? then None
    else if key == PantsKey then
      var waist := WaistAt(r, "pants_waist");
      var length := TextAt(r, "pants_length");
      if waist.None? || length.None? then None
      else Some(Pants(qty.value, waist.value, length.value, memo.value))
    else
      var size := TextAt(r, key + "_size");
      if size.None? then None else Some(Simple(qty.value, size.value, memo.value))
  }

  /**
   * Reads an order back from a flat record. The record carries no total, so
   * the total is recomputed from the quantities.
   */
  function Unflatten(r: map<string, Field>): (d: Option<Draft>)
    ensures d.Some? ==> Shaped(d.value.items) && d.value.totalPrice == OrderTotal(d.value.items)
  {
    var name, zipcode, address := TextAt(r, "name"), TextAt(r, "zipcode"), TextAt(r, "address");
    var phone, email := TextAt(r, "phone"), TextAt(r, "email");
    var shirt, pants, socks := ItemAt(r, "shirt"), ItemAt(r, "pants"), ItemAt(r, "socks");
    if name.None? || zipcode.None? || address.None? || phone.None? || email.None?
       || shirt.None? || pants.None? || socks.None?
    then None
    else
      var items := map["shirt" := shirt.value, "pants" := pants.value, "socks" := socks.value];
      Some(Draft(name.value, zipcode.value, address.value, phone.value, email.value, items, OrderTotal(items)))
  }

  /** Each product's line item reads back from the written-out record. */
  lemma WrittenItems(d: Draft, r: map<string, Field>)
    requires Shaped(d.items)
    requires r == WrittenRecord(ValuesOf(d))
    ensures ItemAt(r, "shirt") == Some(d.items["shirt"])
    ensures ItemAt(r, "pants") == Some(d.items["pants"])
    ensures ItemAt(r, "socks") == Some(d.items["socks"])
  {
    WrittenQuantities(d, r);
    WrittenMemos(d, r);
    WrittenSizes(d, r);
  }

  lemma WrittenRoundTrip(d: Draft, r: map<string, Field>)
    requires DraftOk(d)
    requires r == WrittenRecord(ValuesOf(d))
    ensures Unflatten(r) == Some(d)
  {
    WrittenCustomer(d, r);
    WrittenItems(d, r);
    ShapedItems(d.items);
  }

  /** A shaped item map is the three-entry map of its products. */
  lemma ShapedItems(items: map<string, LineItem>)
    requires Shaped(items)
    ensures items == map["shirt" := items["shirt"], "pants" := items["pants"], "socks" := items["socks"]]
  {
  }

  /**
   * The flat record loses nothing but the total, which the quantities
   * determine: reading it back gives the draft it came from.
   */
  lemma FlattenRoundTrip(d: Draft)
    requires DraftOk(d)
    ensures Unflatten(Flatten(d)) == Some(d)
  {
    FlattenColumns(d, Flatten(d));
    WrittenRoundTrip(d, Flatten(d));
  }
}

=== FILE: session.dfy ===
/**
 * The four-screen session of the order form: log in, fill in the order,
 * confirm it, see the receipt. One call of `Run` is one execution of the
 * page script, driven by the one button the user pressed in it; a rerun the
 * script asks for is simply the next call with `Idle`.
 */
module Session {
  import opened Options
  import opened Feedback
  import opened Catalog
  import opened Postcode
  import opened Order
  import opened InsertRecord

  datatype Phase = Login | Input | Confirm | Complete

  /** The widget values the edit button writes back so the input screen shows the stored order. */
  datatype Slots = Slots(name: string, phone: string, email: string, items: map<string, LineItem>)

  /**
   * The session store. `orderData` is `None` while the stored order is the
   * empty dictionary; `addressInput` is `None` while the key is absent.
   */
  datatype Session = Session(
    phase: Phase,
    loggedIn: bool,
    orderData: Option<Draft>,
    orderId: Option<int>,
    zipcodeInput: string,
    addressInput: Option<string>,
    slots: Option<Slots>)

  /** The fixed user id and password the login screen compares against. */
  datatype Credentials = Credentials(userId: string, password: string)

  /** What the order table answers to an insert: the ids of the inserted rows, or an exception. */
  datatype InsertResponse = Inserted(ids: seq<int>) | InsertRaised

  /** The button pressed in a run, with what the outside world answers to it. */
  datatype Action =
    | Idle
    | SignIn(userId: string, password: string)
    | SearchPostcode(typed: string, answer: LookupResponse)
    | SubmitForm(form: Form)
    | Edit
    | ConfirmOrder(response: InsertResponse)
    | Logout

  /** A request to the outside world made during a run. */
  datatype Call = Lookup(postcode: string) | Insert(record: map<string, Field>)

  datatype Outcome = Outcome(session: Session, messages: seq<Message>, calls: seq<Call>)

  /** A submitted form has a row for every product, since the input screen draws one per product. */
  predicate ActionOk(a: Action) {
    a.SubmitForm? ==> FormOk(a.form)
  }

  /** The session a first run (or a run after logging out) starts from. */
  function Initial(): (s: Session)
    ensures s.phase == Login && !s.loggedIn
    ensures s.orderData.None? && s.orderId.None? && s.slots.None?
    ensures s.zipcodeInput == "" && s.addressInput == Some("")
  {
    Session(Login, false, None, None, "", Some(""), None)
  }

  /** The stored address, or the empty string while no order is stored. */
  function StoredAddress(s: Session): string {
    if s.orderData.Some? then s.orderData.value.address else ""
  }

  /** The set-up every run begins with: a missing `address_input` is refilled from the stored order. */
  function Prologue(s: Session): (p: Session)
    ensures p.addressInput.Some?
    ensures s.addressInput.Some? ==> p == s
    ensures p == s.(addressInput := p.addressInput)
    ensures s.addressInput.None? ==> p.addressInput == Some(StoredAddress(s))
  {
    if s.addressInput.Some? then s else s.(addressInput := Some(StoredAddress(s)))
  }

  /** The widget values of one product row when the user leaves it as shown. */
  function PrefillRow(s: Session, key: string): RowInput {
    if s.slots.Some? && key in s.slots.value.items then RowOf(s.slots.value.items[key])
    else RowInput(0, None, None, "", "")
  }

  /**
   * The input form as shown, when the user changes nothing: the values the
   * edit button wrote back, else the stored order's values, else blanks.
   */
  function Prefill(s: Session): (f: Form)
    ensures FormOk(f)
    ensures s.slots.Some? ==> f.name == s.slots.value.name && f.phone == s.slots.value.phone
                              && f.email == s.slots.value.email
    ensures s.slots.None? && s.orderData.Some? ==>
              f.name == s.orderData.value.name && f.phone == s.orderData.value.phone
              && f.email == s.orderData.value.email
    ensures s.slots.None? && s.orderData.None? ==> f.name == "" && f.phone == "" && f.email == ""
    ensures s.addressInput.Some? ==> f.address == s.addressInput.value
    ensures s.addressInput.None? ==> f.address == StoredAddress(s)
    ensures s.slots.Some? && Shaped(s.slots.value.items) ==>
              forall k :: k in ProductKeys ==> ProductRow(k, f.rows[k]) == s.slots.value.items[k]
    ensures s.slots.None? ==> forall k :: k in ProductKeys ==> ProductRow(k, f.rows[k]).qty == 0
  {
    var stored := s.orderData;
    var name := if s.slots.Some? then s.slots.value.name else if stored.Some? then stored.value.name else "";
    var phone := if s.slots.Some? then s.slots.value.phone else if stored.Some? then stored.value.phone else "";
    var email := if s.slots.Some? then s.slots.value.email else if stored.Some? then stored.value.email else "";
    var address := s.addressInput.GetOr(StoredAddress(s));
    Form(name, address, phone, email, map k | k in ProductKeys :: PrefillRow(s, k))
  }

  /** The input screen: the search button or the submit button. */
  function InputRun(s: Session, a: Action): (o: Outcome)
    requires ActionOk(a)
  {
    match a
    case SearchPostcode(typed, response) =>
      var r := Search(typed, response, s.addressInput);
      Outcome(s.(zipcodeInput := r.zipcodeInput, addressInput := r.addressInput),
              [r.message],
              if r.lookup.Some? then [Lookup(r.lookup.value)] else [])
    case SubmitForm(f) =>
      (match Submit(f, s.zipcodeInput)
       case Accepted(d) => Outcome(s.(orderData := Some(d), phase := Confirm), [], [])
       case Rejected(errors) => Outcome(s, errors, []))
    case _ => Outcome(s, [], [])
  }

  /**
   * The confirm screen. Showing it reads every product's entry of the stored
   * order, so a stored order without the catalog's shape stops the script.
   */
  function ConfirmRun(s: Session, a: Action): (o: Outcome) {
    if s.orderData.None? || !Shaped(s.orderData.value.items) then Outcome(s, [ScriptError], [])
    else
      var d := s.orderData.value;
      match a
      case Edit =>
        Outcome(s.(slots := Some(Slots(d.name, d.phone, d.email, d.items)),
                   addressInput := Some(d.address),
                   zipcodeInput := d.zipcode,
                   phase := Input),
                [], [])
      case ConfirmOrder(response) =>
        var record := Flatten(d);
        (match response
         case InsertRaised => Outcome(s, [ScriptError], [Insert(record)])
         case Inserted(ids) =>
           Outcome(s.(orderId := if |ids| > 0 then Some(ids[0]) else s.orderId, phase := Complete),
                   [], [Insert(record)]))
      case _ => Outcome(s, [], [])
  }

  /** The receipt screen drops `address_input` every time it is shown; logging out clears everything. */
  function CompleteRun(s: Session, a: Action): (o: Outcome) {
    if a.Logout? then Outcome(Initial(), [], [])
    else Outcome(s.(addressInput := None), [], [])
  }

  /** One execution of the page script with the button `a` pressed. */
  function Run(creds: Credentials, s0: Session, a: Action): (o: Outcome)
    requires ActionOk(a)
    ensures |o.calls| <= 1
    ensures (exists c :: c in o.calls && c.Insert?) ==> s0.loggedIn && s0.phase == Confirm && a.ConfirmOrder?
    ensures (exists c :: c in o.calls && c.Lookup?) ==> s0.loggedIn && s0.phase == Input && a.SearchPostcode?
    ensures !s0.loggedIn ==> o.session.phase == s0.phase || (a.SignIn? && o.session.phase == Input)
  {
    var s := Prologue(s0);
    if !s.loggedIn then
      match a
      case SignIn(userId, password) =>
        if userId == creds.userId && password == creds.password
        then Outcome(s.(loggedIn := true, phase := Input), [LoginSucceeded], [])
        else Outcome(s, [LoginFailed], [])
      case _ => Outcome(s, [], [])
    else
      match s.phase
      case Login => Outcome(s, [], [])
      case Input => InputRun(s, a)
      case Confirm => ConfirmRun(s, a)
      case Complete => CompleteRun(s, a)
  }

  /**
   * What every session reachable from the start satisfies: logged in exactly
   * off the login screen, which holds nothing; a stored order on the confirm
   * and receipt screens, and every stored order one the input screen
   * accepted; an order id only on the receipt screen, which alone
   * may lack `address_input`; a digit-only postcode.
   */
  predicate Inv(s: Session) {
    && (s.loggedIn <==> s.phase != Login)
    && (s.phase == Login ==> s == Initial())
    && AllDigits(s.zipcodeInput)
    && ((s.phase == Confirm || s.phase == Complete) ==> s.orderData.Some?)
    && (s.orderData.Some? ==> DraftOk(s.orderData.value))
    && (s.phase != Complete ==> s.orderId.None? && s.addressInput.Some?)
    && (s.slots.Some? ==> Shaped(s.slots.value.items))
  }

  lemma InitialInv()
    ensures Inv(Initial())
  {
  }

  lemma PrologueInv(s: Session)
    requires Inv(s)
    ensures Inv(Prologue(s))
  {
  }

  /** Every run keeps the invariant. */
  lemma RunPreservesInv(creds: Credentials, s: Session, a: Action)
    requires ActionOk(a)
    requires Inv(s)
    ensures Inv(Run(creds, s, a).session)
  {
    PrologueInv(s);
    var p := Prologue(s);
    if p.loggedIn && p.phase == Input && a.SearchPostcode? {
      var r := Search(a.typed, a.answer, p.addressInput);
      assert AllDigits(r.zipcodeInput);
    }
  }

  /** The sessions a sequence of runs passes through, ending in the last one. */
  function Replay(creds: Credentials, s: Session, actions: seq<Action>): Session
    requires forall i :: 0 <= i < |actions| ==> ActionOk(actions[i])
    decreases |actions|
  {
    if actions == [] then s
    else Replay(creds, Run(creds, s, actions[0]).session, actions[1..])
  }

  /** Every session reachable from the start satisfies the invariant. */
  lemma {:induction false} ReplayKeepsInv(creds: Credentials, s: Session, actions: seq<Action>)
    requires forall i :: 0 <= i < |actions| ==> ActionOk(actions[i])
    requires Inv(s)
    ensures Inv(Replay(creds, s, actions))
    decreases |actions|
  {
    if actions != [] {
      RunPreservesInv(creds, s, actions[0]);
      ReplayKeepsInv(creds, Run(creds, s, actions[0]).session, actions[1..]);
    }
  }

  lemma Reachable(creds: Credentials, actions: seq<Action>)
    requires forall i :: 0 <= i < |actions| ==> ActionOk(actions[i])
    ensures Inv(Replay(creds, Initial(), actions))
  {
    InitialInv();
    ReplayKeepsInv(creds, Initial(), actions);
  }

  /** The login button lets the user in exactly when both fields match the fixed credentials. */
  lemma SignInIff(creds: Credentials, userId: string, password: string)
    ensures var o := Run(creds, Initial(), SignIn(userId, password));
            && (o.session.phase == Input <==> userId == creds.userId && password == creds.password)
            && (o.session.loggedIn <==> o.session.phase == Input)
            && (o.session.phase != Input ==> o.session == Initial() && o.messages == [LoginFailed])
            && (o.session.phase == Input ==> o.session == Initial().(loggedIn := true, phase := Input))
  {
  }

  /**
   * The submit button moves to the confirm screen exactly when the four
   * rules hold for the last searched postcode; otherwise the stored order
   * is untouched and each broken rule shows its own message.
   */
  lemma SubmitAdvancesIff(creds: Credentials, s: Session, f: Form)
    requires Inv(s) && s.phase == Input && FormOk(f)
    ensures var o := Run(creds, s, SubmitForm(f));
            var total := OrderTotal(BuildItems(f));
            && (o.session.phase == Confirm <==> Eligible(f.name, s.zipcodeInput, f.address, total))
            && (o.session.phase == Confirm ==> o.session.orderData.Some?
                                               && o.session.orderData.value.zipcode == s.zipcodeInput
                                               && o.session.orderData.value.totalPrice == total
                                               && o.session.orderData == Some(Submit(f, s.zipcodeInput).draft))
            && (o.session.phase != Confirm ==>
                  && o.session.phase == Input
                  && o.session.orderData == s.orderData
                  && o.messages == Validate(f.name, s.zipcodeInput, f.address, total))
            && (o.session.phase != Confirm ==> o.session == s)
            && (o.session.phase == Confirm ==> o.session == s.(orderData := o.session.orderData, phase := Confirm))
            && o.calls == []
  {
  }

  /**
   * The search button stores the digits of what was typed, asks the postcode
   * service only about seven digits, and replaces the address only with a
   * found one.
   */
  lemma SearchEffect(creds: Credentials, s: Session, typed: string, response: LookupResponse)
    requires Inv(s) && s.phase == Input
    ensures var o := Run(creds, s, SearchPostcode(typed, response));
            && o.session.zipcodeInput == StripNonDigits(typed)
            && (o.calls == [Lookup(StripNonDigits(typed))] <==> IsSevenDigits(StripNonDigits(typed)))
            && (!IsSevenDigits(StripNonDigits(typed)) ==> o.calls == [])
            && (IsSevenDigits(StripNonDigits(typed)) && response.Resolved? ==>
                  o.session.addressInput == Some(response.address1 + response.address2 + response.address3))
            && (!(IsSevenDigits(StripNonDigits(typed)) && response.Resolved?) ==>
                  o.session.addressInput == s.addressInput)
            && o.session.phase == Input && o.session.orderData == s.orderData
            && o.session == s.(zipcodeInput := o.session.zipcodeInput, addressInput := o.session.addressInput)
  {
  }

  /** On the input screen, a run that neither searches nor leaves the screen changes nothing. */
  lemma InputFrame(creds: Credentials, s: Session, a: Action)
    requires ActionOk(a) && Inv(s) && s.phase == Input
    ensures var o := Run(creds, s, a);
            !a.SearchPostcode? && o.session.phase == Input ==> o.session == s
  {
  }

  /** Only search, edit and logout write the stored postcode. */
  lemma ZipcodeFrame(creds: Credentials, s: Session, a: Action)
    requires ActionOk(a) && Inv(s)
    ensures var o := Run(creds, s, a);
            || o.session.zipcodeInput == s.zipcodeInput
            || (s.phase == Input && a.SearchPostcode?)
            || (s.phase == Confirm && a.Edit?)
            || (s.phase == Complete && a.Logout?)
  {
  }

  /**
   * The edit button returns to the input screen with every widget showing
   * the stored order: name, contact, rows, address and postcode.
   */
  lemma EditRestores(creds: Credentials, s: Session)
    requires Inv(s) && s.phase == Confirm
    ensures var o := Run(creds, s, Edit);
            var d := s.orderData.value;
            var f := Prefill(o.session);
            && o.session.phase == Input && o.session.orderData == s.orderData
            && f.name == d.name && f.phone == d.phone && f.email == d.email && f.address == d.address
            && (forall k :: k in ProductKeys ==> ProductRow(k, f.rows[k]) == d.items[k])
            && o.session.zipcodeInput == d.zipcode
            && ZipBoxDefault(o.session.zipcodeInput) == d.zipcode
  {
    var d := s.orderData.value;
    forall k | k in ProductKeys
      ensures ProductRow(k, Prefill(Run(creds, s, Edit).session).rows[k]) == d.items[k]
    {
      RowRoundTrip(k, d.items[k]);
    }
  }

  /** Editing and then submitting the form unchanged stores the very same order again. */
  lemma EditThenResubmit(creds: Credentials, s: Session)
    requires Inv(s) && s.phase == Confirm
    ensures var s1 := Run(creds, s, Edit).session;
            var o := Run(creds, s1, SubmitForm(Prefill(s1)));
            && o.session.phase == Confirm
            && o.session.orderData == s.orderData
            && o.messages == [] && o.calls == []
  {
    var d := s.orderData.value;
    var s1 := Run(creds, s, Edit).session;
    EditRestores(creds, s);
    var f := Prefill(s1);
    BuildItemsFrom(f, d.items);
  }

  /**
   * The only screen changes a run can make: log in, submit an accepted form,
   * edit, confirm with a returned insert of the stored order, log out.
   */
  lemma PhaseSteps(creds: Credentials, s: Session, a: Action)
    requires ActionOk(a) && Inv(s)
    ensures var o := Run(creds, s, a);
            || o.session.phase == s.phase
            || (s.phase == Login && a.SignIn? && o.session.phase == Input)
            || (s.phase == Input && a.SubmitForm? && o.session.phase == Confirm)
            || (s.phase == Confirm && a.Edit? && o.session.phase == Input)
            || (s.phase == Confirm && a.ConfirmOrder? && a.response.Inserted? && o.session.phase == Complete
                && o.calls == [Insert(Flatten(s.orderData.value))])
            || (s.phase == Complete && a.Logout? && o.session.phase == Login)
  {
    if s.phase == Confirm && a.ConfirmOrder? && a.response.Inserted? {
      ConfirmInserted(creds, s, a.response.ids);
      var o := Run(creds, s, a);
      assert o.calls == [o.calls[0]];
    } else if s.phase != Login {
      RunDispatch(creds, s, a);
    }
  }

  /**
   * The stored order changes only when an accepted form moves to the confirm
   * screen, or when logging out clears the session.
   */
  lemma OrderDataFrame(creds: Credentials, s: Session, a: Action)
    requires ActionOk(a) && Inv(s)
    ensures var o := Run(creds, s, a);
            || o.session.orderData == s.orderData
            || (s.phase == Input && a.SubmitForm? && o.session.phase == Confirm)
            || (s.phase == Complete && a.Logout? && o.session == Initial())
  {
  }

  /** On the confirm screen no run changes the stored order. */
  lemma ConfirmKeepsDraft(creds: Credentials, s: Session, a: Action)
    requires ActionOk(a) && Inv(s) && s.phase == Confirm
    ensures Run(creds, s, a).session.orderData == s.orderData
  {
  }

  /** Off the login screen, a run is the current screen's handler. */
  lemma RunDispatch(creds: Credentials, s: Session, a: Action)
    requires ActionOk(a)
    requires Inv(s) && s.phase != Login
    ensures s.phase == Input ==> Run(creds, s, a) == InputRun(s, a)
    ensures s.phase == Confirm ==> Run(creds, s, a) == ConfirmRun(s, a)
    ensures s.phase == Complete ==> Run(creds, s, a) == CompleteRun(Prologue(s), a)
  {
  }

  /**
   * The confirm button sends exactly one insert, of the flat record of the
   * stored order, and moves to the receipt screen, keeping the first
   * inserted id when the table returns one.
   */
  lemma ConfirmInserted(creds: Credentials, s: Session, ids: seq<int>)
    requires Inv(s) && s.phase == Confirm
    ensures var o := Run(creds, s, ConfirmOrder(Inserted(ids)));
            && |o.calls| == 1 && o.calls[0].Insert? && o.calls[0].record == Flatten(s.orderData.value)
            && o.session.phase == Complete && o.session.orderData == s.orderData
            && (|ids| > 0 ==> o.session.orderId == Some(ids[0]))
            && (|ids| == 0 ==> o.session.orderId.None?)
  {
    RunDispatch(creds, s, ConfirmOrder(Inserted(ids)));
  }

  /** An exception from the insert leaves the session on the confirm screen as it was. */
  lemma ConfirmRaised(creds: Credentials, s: Session)
    requires Inv(s) && s.phase == Confirm
    ensures var o := Run(creds, s, ConfirmOrder(InsertRaised));
            && |o.calls| == 1 && o.calls[0].Insert? && o.calls[0].record == Flatten(s.orderData.value)
            && o.session == s && o.messages == [ScriptError]
  {
    RunDispatch(creds, s, ConfirmOrder(InsertRaised));
    ConfirmScreenRaised(s);
  }

  lemma ConfirmScreenRaised(s: Session)
    requires s.orderData.Some? && Shaped(s.orderData.value.items)
    ensures var o := ConfirmRun(s, ConfirmOrder(InsertRaised));
            && |o.calls| == 1 && o.calls[0].Insert? && o.calls[0].record == Flatten(s.orderData.value)
            && o.session == s && o.messages == [ScriptError]
  {
  }

  /** Once on the receipt screen, no run inserts again. */
  lemma NoSecondInsert(creds: Credentials, s: Session, a: Action)
    requires ActionOk(a)
    requires Inv(s) && s.phase == Complete
    ensures Run(creds, s, a).calls == []
    ensures a.Logout? ==> Run(creds, s, a).session == Initial()
    ensures !a.Logout? ==> Run(creds, s, a).session == s.(addressInput := None)
  {
  }

  /** One shirt of size M and nothing else: the form a first-time customer submits. */
  function OneShirtForm(name: string, address: string): (f: Form)
    ensures FormOk(f)
  {
    Form(name, address, "", "",
         map["shirt" := RowInput(1, Some("M"), None, "", ""),
             "pants" := RowInput(0, None, None, "", ""),
             "socks" := RowInput(0, None, None, "", "")])
  }

  /** One shirt comes to 2000 yen. */
  lemma OneShirtTotal(name: string, address: string)
    ensures OrderTotal(BuildItems(OneShirtForm(name, address))) == 2000
  {
    CatalogTotal(BuildItems(OneShirtForm(name, address)));
  }

  /** The draft the one-shirt form gives keeps its address and orders one shirt of size M. */
  lemma OneShirtDraft(name: string, address: string, zipcode: string)
    ensures var r := Submit(OneShirtForm(name, address), zipcode);
            r.Accepted? ==> r.draft.address == address && r.draft.items["shirt"] == Simple(1, "M", "")
  {
  }

  /**
   * The whole happy path: log in, search postcode 6008001, keep the found
   * address, order one shirt, confirm; the table is asked once and its id is
   * the receipt number.
   */
  lemma HappyPath(creds: Credentials, name: string, response: LookupResponse, id: int)
    requires name != "" && response.Resolved?
    requires response.address1 + response.address2 + response.address3 != ""
    ensures var address := response.address1 + response.address2 + response.address3;
            var s1 := Run(creds, Initial(), SignIn(creds.userId, creds.password)).session;
            var o2 := Run(creds, s1, SearchPostcode("6008001", response));
            var o3 := Run(creds, o2.session, SubmitForm(OneShirtForm(name, address)));
            var o4 := Run(creds, o3.session, ConfirmOrder(Inserted([id])));
            && o2.calls == [Lookup("6008001")] && o2.session.addressInput == Some(address)
            && o3.session.phase == Confirm && o3.session.orderData.Some? && o3.session.orderData.value.totalPrice == 2000
            && o3.session.orderData.value.address == address
            && "shirt" in o3.session.orderData.value.items
            && o3.session.orderData.value.items["shirt"] == Simple(1, "M", "")
            && |o4.calls| == 1 && o4.calls[0].Insert? && o4.calls[0].record == Flatten(o3.session.orderData.value)
            && o4.session.phase == Complete && o4.session.orderId == Some(id)
  {
    var address := response.address1 + response.address2 + response.address3;
    var s1 := Run(creds, Initial(), SignIn(creds.userId, creds.password)).session;
    assert s1.phase == Input && Inv(s1);
    assert AllDigits("6008001");
    SearchEffect(creds, s1, "6008001", response);
    var o2 := Run(creds, s1, SearchPostcode("6008001", response));
    RunPreservesInv(creds, s1, SearchPostcode("6008001", response));
    OneShirtTotal(name, address);
    SubmitAdvancesIff(creds, o2.session, OneShirtForm(name, address));
    var o3 := Run(creds, o2.session, SubmitForm(OneShirtForm(name, address)));
    OneShirtDraft(name, address, o2.session.zipcodeInput);
    RunPreservesInv(creds, o2.session, SubmitForm(OneShirtForm(name, address)));
    ConfirmInserted(creds, o3.session, [id]);
  }
}
